=== FILE: README.md ===
# Delivery service script — verified model

`Project1.py` is a small console program for a parcel delivery service. A
customer books a delivery: the program draws a five-digit id, takes today's
date, asks for name, two phone numbers and e-mail, then asks for a
destination and a number of loots until the destination is one it serves
("Bangkok" or "Chaing Mai", spelled that way), prices the order and appends
one comma-separated line to `Project1.csv`. The customer can later look up
the receipt by name and id: the program reads the file's lines and stops at
the first line whose name field equals the typed name ignoring case and
whose id field equals the typed id as text.

This project models the pure parts of that program in Dafny and proves
their properties:

- `pricing.dfy` (`Pricing`): the tiered price function and its price list.
- `records.dfy` (`Records`): the record, its date text, the line written for
  it, the reader's `strip().split(',')`, and the append to the file.
- `delivery.dfy` (`Deliveries`): the booking operation with its
  destination-acceptance loop.
- `receipt.dfy` (`Receipts`): the receipt lookup, including the ways it fails.
- `text.dfy` (`Text`), `decimal.dfy` (`Decimal`), `textfile.dfy`
  (`TextFile`), `wrappers.dfy` (`Wrappers`): Python's `strip`, `lower`,
  `split` and `join`; `str()` of integers and zero padding; reading a text
  file with universal newlines and `readlines()`; an option type.

The data file is modelled as its text: `Option<string>`, where `None` is a
file that does not exist yet. Booking appends to it (append mode creates the
file); lookup reads it back through newline translation and `readlines()`.

## Model

| member | source | states |
|---|---|---|
| Pricing.CalculateAmount | Project1.py:23-30 | the price is always one of 0, 200, 500, 1000, 1500, and it is positive exactly for the two served destinations |
| Pricing.CalculateAmountFollowsPriceList | Project1.py:23-30 | for every destination and every integer loot count, the price equals the price-list entry (up to two loots or more than two), and 0 off the list |
| Pricing.BangkokPrice | Project1.py:25-26 | "Bangkok" costs 200 for at most two loots, including zero and negative counts, and 500 above two |
| Pricing.ChaingMaiPrice | Project1.py:27-28 | "Chaing Mai" costs 1000 for at most two loots and 1500 above two |
| Pricing.MisspelledDestinationsCostNothing | Project1.py:29-30 | "Chiang Mai", "bangkok" and " Bangkok" cost 0, because the comparison is exact |
| Pricing.CalculateAmountMonotone | Project1.py:23-30 | for a fixed destination, more loots never cost less |
| Decimal.FiveDigitId | Project1.py:36 | every id drawn from [10000, 99999] is written as exactly five digits with no leading zero |
| Decimal.IntRoundTrip | Project1.py:19-20 | the decimal text written for an integer field (`str(n)`, with '-' for negatives) reads back as that integer |
| Decimal.IntToString | Project1.py:19-20 | `str(n)` is never empty and has no leading zero: for n >= 0 it is all digits and starts with "0" only when it is "0"; for n < 0 it is "-" followed by digits, the first not "0" (read back by `Decimal.IntRoundTrip`) |
| Decimal.IntToStringInjective | Project1.py:83 | two integers have the same decimal text exactly when they are equal, so text comparison of ids agrees with numeric equality for the ids the program writes |
| Records.DateText | Project1.py:38 | `str(date.today())` is ten characters "YYYY-MM-DD": digits with dashes at positions 4 and 7, and the three digit groups read back as the date's year, month and day |
| Decimal.PadNatRoundTrip | Project1.py:38 | a zero-padded number, as in the date's "MM" and "DD", reads back as that number whatever the padding |
| Decimal.PadNat | Project1.py:38 | the zero-padded text of a number is all digits, exactly the requested width when the number fits, and the plain decimal text when it does not |
| Records.SerialiseRow | Project1.py:19-20 | every stored line ends with "\n" |
| Records.SerialiseRowLayout | Project1.py:19-20 | the stored line is date, id, name, phone1, phone2, email, loots, from, to, amount joined by "," with a final "\n", with no header and no status column |
| Records.ParseRow | Project1.py:82 | taking a line apart always gives at least one field and no field holds a comma |
| Records.RowRoundTrip | Project1.py:82 | stripping and splitting a stored line gives back the record's ten fields in order, when no text field holds a comma or line break |
| Records.RowIsOneLine | Project1.py:19-20 | a stored line has its only "\n" at the end and no "\r", so it is read back as exactly one line |
| Records.Store | Project1.py:18-21 | appending keeps the earlier file content as a prefix and leaves the file ending in "\n" |
| Records.StoreAppendsRow | Project1.py:18-21 | after the append, reading the file gives the lines it had before followed by the new row |
| Text.Strip | Project1.py:82 | the stripped text has no whitespace at either end, and is empty exactly when the input is all whitespace |
| Text.StripCutsWhitespaceEnds | Project1.py:82 | the stripped text is the piece of the input that starts right after its leading whitespace, with only whitespace before and after it |
| Text.StripIsTheTrimmedMiddle | Project1.py:82 | conversely, any piece of the input with no whitespace at its ends and only whitespace around it is what `strip()` returns, so the stripped text is unique |
| Text.StripKeeps | Project1.py:73-74 | stripping removes only whitespace: every other character survives |
| Text.Split | Project1.py:82 | `split(',')` gives at least one field and no field contains the separator |
| Text.JoinSplit | Project1.py:82 | joining the fields of a split gives the text back |
| Text.SplitJoin | Project1.py:82 | splitting fields joined by the separator gives the fields back when none contains the separator |
| Text.PaddedDiffersUpToCase | Project1.py:83 | text with whitespace at an end never equals, after lower-casing, text without whitespace there |
| Text.Lower | Project1.py:83 | lower-casing keeps the length and maps each character on its own: "A".."Z" to "a".."z", every other character unchanged |
| TextFile.ConcatReadLines | Project1.py:79 | `readlines()` loses nothing: its lines put back together are the text |
| TextFile.ReadLines | Project1.py:79 | every line read is nonempty; every line but the last ends in "\n" and holds no other "\n"; the last has no "\n" before its final character |
| TextFile.ReadLinesOfLines | Project1.py:79 | text made of lines that each end in their only "\n" is read back as exactly those lines |
| TextFile.TranslateAppend | Project1.py:78-79 | universal-newline translation of a text works piece by piece when the first piece does not end in "\r" |
| TextFile.Translate | Project1.py:78 | after universal-newline translation of the file text, no "\r" is left |
| TextFile.TranslateLineEnds | Project1.py:78 | reading in text mode turns a "\r\n" pair into one "\n", and a "\r" not followed by "\n" into one "\n", leaving the text before it unchanged; with `TextFile.TranslateNoReturn` this fixes the translation of every text |
| TextFile.AppendOneLine | Project1.py:18-21 | appending one proper line to a file that ends in "\n" adds exactly that line to what is read back |
| Deliveries.AcceptedRecord | Project1.py:45-57 | an accepted attempt gives a record whose destination is the stripped answer and is in ["Bangkok", "Chaing Mai"], whose origin is "Rangsit" and whose amount is the positive price of that destination and loot count |
| Deliveries.Accepted | Project1.py:50-54 | an answer is accepted exactly when the tariff gives its stripped destination a positive price, whatever the loot count |
| Deliveries.Delivery | Project1.py:35-60 | nothing is stored exactly when no answer is accepted; otherwise the first accepted answer decides the record, every earlier answer was rejected, the identity fields are carried over, the id text has five digits, and the file is the old file plus the record's row |
| Receipts.FindFrom | Project1.py:81-88 | the scan from a given line reports the outcome `FirstMatchFrom` describes |
| Receipts.FindReceipt | Project1.py:81-91 | the result is the first line in file order that matches, with every earlier line readable and not matching; or the first line with fewer than three fields; or a short matched line; or not-found when every line was read and none matched |
| Receipts.Check | Project1.py:72-91 | a missing file is reported as such and only then; otherwise the lookup uses the stripped name and id and obeys the first-match description |
| Receipts.Matches | Project1.py:83 | a line matches exactly when it has a name field of the search name's length that agrees with it letter by letter up to ASCII case, and its id field is the search id as text |
| Receipts.FirstMatchUnique | Project1.py:81-88 | the first-match description admits exactly one outcome |
| Receipts.FindReceiptIsTheFirstMatch | Project1.py:81-91 | any outcome that meets the first-match description is the one the lookup gives |
| Receipts.NotFoundIffNoMatch | Project1.py:90-91 | not-found happens exactly when every line has a name field and none matches |
| Receipts.FindReceiptAppend | Project1.py:81-88 | rows added at the end never change an outcome the earlier rows decide; when the earlier rows find nothing, the new rows decide, numbered after the old ones |
| Receipts.NameCaseInsensitive | Project1.py:83 | two search names equal up to letter case give the same result |
| Receipts.BlankLineIsMalformed | Project1.py:82-83 | a whitespace-only line reached by the scan stops it with an indexing error instead of being skipped |
| Receipts.RowMatchesExactly | Project1.py:83 | a stored row matches exactly when its name equals the search name up to case and the search id is its id text |
| Receipts.IdComparedAsText | Project1.py:83 | a stored row is never matched by the text of a different id, nor by its own id with a leading zero |
| Receipts.CommaNameNeverFound | Project1.py:73-83 | a typed name containing a comma never finds a receipt |
| Receipts.PaddedNameNeverMatches | Project1.py:73-83 | a record whose name has whitespace at either end is never matched, because the typed name is stripped and the stored field is not |
| Receipts.StoredRowIsFound | Project1.py:81-88 | a file holding just one stored row finds that row, field for field, by the record's own name and id |
| Receipts.StoreThenFind | Project1.py:79-88 | after a row is appended to lines that do not contain a match, the scan finds the new row, field for field, at the new last line |
| Receipts.StoreThenCheck | Project1.py:72-91 | after a record is stored, looking it up by its name and id finds it, field for field, at the new last line, when the earlier lines did not decide the lookup |

## Left out

- Console input and output: the prompts, the receipt printout and the
  not-found message (Project1.py:40-43, 62-69, 85-87, 91). The printout
  matters in one way, which is modelled: it reads `data[9]`, so a matched
  line with fewer than ten fields raises an error (`ShortReceipt`).
- The `main` menu (Project1.py:94-109): option 3 does nothing and option 4
  is not implemented; this is interactive dispatch with no behaviour to
  state.
- `random.randint` and `datetime.date.today()` (Project1.py:36, 38): the id
  and the date are inputs of `Delivery`. The id range is its precondition.
  The date must be a valid calendar date.
- `int(...)` on typed text (Project1.py:52, 101): parse failures are
  host-library behaviour. The loot count arrives as an integer.
- The acceptance loop runs until an answer is accepted. The model takes a
  finite sequence of answers. Running out of answers stands for the end of
  input, where `input()` would raise; nothing is stored then.
- Text.Lower: folds ASCII letters only, not Python's full Unicode
  `str.lower()`, whose case tables are host-library data. `strip()` uses
  Python's whole whitespace set.
- File system errors other than a missing file on reading, text encoding,
  and the platform newline on writing. Writing is taken to emit "\n" as is,
  as on POSIX systems.
- A data file edited by hand so that it does not end in "\n": appending
  would then join the new row to the last line. `Records.StoreAppendsRow`
  and `Receipts.StoreThenCheck` assume the file ends in "\n", which every
  file written only by the program does.

=== FILE: decimal.dfy ===
/**
 * Decimal text of integers, as Python's `str(n)` and `f"{n}"` produce it:
 * no leading zeros, a '-' in front of negative numbers. Also the
 * zero-padded form `%0Nd` that `str(datetime.date)` uses for its fields.
 */
module Decimal {

  predicate IsDigit(c: char) {
    '0' <= c <= '9'
  }

  predicate AllDigits(s: string) {
    forall i :: 0 <= i < |s| ==> IsDigit(s[i])
  }

  function DigitChar(d: nat): (c: char)
    requires d < 10
    ensures IsDigit(c) && c as int - '0' as int == d
  {
    (d + '0' as int) as char
  }

  function DigitValue(c: char): (d: nat)
    requires IsDigit(c)
    ensures d < 10 && DigitChar(d) == c
  {
    c as int - '0' as int
  }

  function Pow10(k: nat): (p: nat)
    ensures p >= 1
  {
    if k == 0 then 1 else 10 * Pow10(k - 1)
  }

  /** Decimal digits of `n`, most significant first, with no leading zero. */
  function NatToString(n: nat): (r: string)
    ensures |r| >= 1 && AllDigits(r)
    ensures r[0] == '0' ==> n == 0 && r == "0"
  {
    if n < 10 then [DigitChar(n)] else NatToString(n / 10) + [DigitChar(n % 10)]
  }

  /** Python's `str(n)` for an `int`. */
  function IntToString(n: int): (r: string)
    ensures |r| >= 1
    ensures n >= 0 ==> AllDigits(r)
    ensures n < 0 ==> r[0] == '-' && AllDigits(r[1..])
    ensures n >= 0 ==> (r[0] == '0' ==> r == "0")
    ensures n < 0 ==> |r| >= 2 && r[1] != '0'
  {
    if n < 0 then "-" + NatToString(-n) else NatToString(n)
  }

  /** The value of a string of decimal digits; the empty string reads as 0. */
  function ParseNat(s: string): nat
    requires AllDigits(s)
  {
    if s == [] then 0 else 10 * ParseNat(s[..|s| - 1]) + DigitValue(s[|s| - 1])
  }

  /** Reads back the text `IntToString` produces. */
  function ParseInt(s: string): int
    requires |s| >= 1
    requires s[0] == '-' ==> AllDigits(s[1..])
    requires s[0] != '-' ==> AllDigits(s)
  {
    if s[0] == '-' then 0 - ParseNat(s[1..]) as int else ParseNat(s)
  }

  lemma {:induction false} NatRoundTrip(n: nat)
    ensures ParseNat(NatToString(n)) == n
  {
    if n >= 10 {
      var s := NatToString(n);
      assert s[..|s| - 1] == NatToString(n / 10);
      NatRoundTrip(n / 10);
    }
  }

  /** Reading back the decimal text of an integer gives the integer. */
  lemma IntRoundTrip(n: int)
    ensures ParseInt(IntToString(n)) == n
  {
    if n < 0 {
      assert IntToString(n)[1..] == NatToString(-n);
      NatRoundTrip(-n);
    } else {
      NatRoundTrip(n);
    }
  }

  /** Distinct integers have distinct decimal texts. */
  lemma IntToStringInjective(a: int, b: int)
    ensures IntToString(a) == IntToString(b) <==> a == b
  {
    IntRoundTrip(a);
    IntRoundTrip(b);
  }

  /** A number in [10^(k-1), 10^k) has exactly k decimal digits. */
  lemma {:induction false} NatToStringLength(n: nat, k: nat)
    requires k >= 1 && Pow10(k - 1) <= n < Pow10(k)
    ensures |NatToString(n)| == k
  {
    if k > 1 {
      NatToStringLength(n / 10, k - 1);
    }
  }

  /** A number below 10^k has at most k decimal digits. */
  lemma {:induction false} NatToStringShort(n: nat, k: nat)
    requires k >= 1 && n < Pow10(k)
    ensures |NatToString(n)| <= k
  {
    if n >= 10 {
      NatToStringShort(n / 10, k - 1);
    }
  }

  /** Every id drawn from [10000, 99999] is written as exactly five digits, the first not '0'. */
  lemma FiveDigitId(id: int)
    requires 10000 <= id <= 99999
    ensures |IntToString(id)| == 5 && AllDigits(IntToString(id))
    ensures IntToString(id)[0] != '0'
  {
    assert Pow10(4) == 10000 && Pow10(5) == 100000;
    NatToStringLength(id, 5);
  }

  function Zeros(k: nat): (r: string)
    ensures |r| == k && forall i :: 0 <= i < k ==> r[i] == '0'
  {
    if k == 0 then "" else "0" + Zeros(k - 1)
  }

  /** `%0wd`: the digits of `n`, left-padded with zeros to at least `w` characters. */
  function PadNat(n: nat, w: nat): (r: string)
    ensures AllDigits(r)
    ensures |NatToString(n)| <= w ==> |r| == w
    ensures |NatToString(n)| > w ==> r == NatToString(n)
  {
    var d := NatToString(n);
    if |d| < w then Zeros(w - |d|) + d else d
  }

  /** A run of zeros reads as 0. */
  lemma {:induction false} ParseNatZeros(k: nat)
    ensures ParseNat(Zeros(k)) == 0
  {
    if k > 0 {
      assert Zeros(k)[..k - 1] == Zeros(k - 1);
      ParseNatZeros(k - 1);
    }
  }

  /** Leading zeros do not change the value of a digit string. */
  lemma {:induction false} ParseNatLeadingZeros(k: nat, d: string)
    requires AllDigits(d)
    ensures ParseNat(Zeros(k) + d) == ParseNat(d)
  {
    if d == [] {
      assert Zeros(k) + d == Zeros(k);
      ParseNatZeros(k);
    } else {
      var s := Zeros(k) + d;
      assert s[..|s| - 1] == Zeros(k) + d[..|d| - 1];
      assert s[|s| - 1] == d[|d| - 1];
      ParseNatLeadingZeros(k, d[..|d| - 1]);
    }
  }

  /** The zero-padded text of `n` reads back as `n`, whatever the width. */
  lemma PadNatRoundTrip(n: nat, w: nat)
    ensures ParseNat(PadNat(n, w)) == n
  {
    var d := NatToString(n);
    NatRoundTrip(n);
    if |d| < w {
      assert PadNat(n, w) == Zeros(w - |d|) + d;
      ParseNatLeadingZeros(w - |d|, d);
    } else {
      assert PadNat(n, w) == d;
    }
  }
}

=== FILE: delivery.dfy ===
/**
 * The `Delivery` operation: it draws an id and a date, takes the customer's
 * details, asks for a destination and a number of loots until the
 * destination is one the service covers, prices the order, and appends its
 * row to the file.
 */
module Deliveries {
  import opened Wrappers
  import opened Text
  import opened Decimal
  import opened Pricing
  import opened Records

  /** The destinations the acceptance loop lets through. */
  const Available: seq<string> := [Bangkok, ChaingMai]

  /** Every delivery leaves from here. */
  const Origin: string := "Rangsit"

  /** One pass of the acceptance loop: the destination typed, then the loot count typed. */
  datatype Attempt = Attempt(destination: string, loots: int)

  /**
   * The loop accepts an attempt whose destination, once stripped, is an
   * available one: exactly the attempts the tariff gives a positive price,
   * whatever the loot count.
   */
  predicate Accepted(a: Attempt)
    ensures Accepted(a) <==> CalculateAmount(Strip(a.destination), a.loots) > 0
  {
    Strip(a.destination) in Available
  }

  /**
   * The record the script stores once `attempt` is accepted: the fixed
   * origin, the stripped destination, the typed loot count and its price.
   */
  function AcceptedRecord(date: Date, id: int, name: string, phone1: string, phone2: string,
                          email: string, attempt: Attempt): (rec: Record)
    requires Accepted(attempt)
    ensures rec.to == Strip(attempt.destination) && rec.loots == attempt.loots
    ensures rec.to in Available && rec.origin == Origin
    ensures rec.amount > 0 && rec.amount == CalculateAmount(rec.to, rec.loots)
    ensures rec.date == date && rec.id == id && rec.name == name
    ensures rec.phone1 == phone1 && rec.phone2 == phone2 && rec.email == email
  {
    var to := Strip(attempt.destination);
    assert to == Bangkok || to == ChaingMai;
    Record(date, id, name, phone1, phone2, email, attempt.loots, Origin, to,
           CalculateAmount(to, attempt.loots))
  }

  /** A completed delivery: the record, the file after the append, and the attempt that was accepted. */
  datatype Order = Order(record: Record, file: string, attempt: nat)

  /**
   * `Delivery()`: `attempts` are the answers the customer gives to the
   * destination and loot prompts, in order. The first accepted one decides
   * the record; if the answers run out before one is accepted (the prompt
   * would hit end of input), nothing is stored.
   */
  method Delivery(file: Option<string>, date: Date, id: int, name: string, phone1: string,
                  phone2: string, email: string, attempts: seq<Attempt>)
    returns (r: Option<Order>)
    requires ValidDate(date)
    requires 10000 <= id <= 99999
    ensures r.None? <==> forall j :: 0 <= j < |attempts| ==> !Accepted(attempts[j])
    ensures r.Some? ==>
      var k := r.value.attempt;
      && k < |attempts| && Accepted(attempts[k])
      && (forall j :: 0 <= j < k ==> !Accepted(attempts[j]))
      && r.value.record.to == Strip(attempts[k].destination)
      && r.value.record.loots == attempts[k].loots
    ensures r.Some? ==>
      var rec := r.value.record;
      && rec.to in Available && rec.origin == Origin
      && rec.amount > 0 && rec.amount == CalculateAmount(rec.to, rec.loots)
      && rec.date == date && rec.id == id && rec.name == name
      && rec.phone1 == phone1 && rec.phone2 == phone2 && rec.email == email
      && |IntToString(rec.id)| == 5
    ensures r.Some? ==> ValidDate(r.value.record.date) && r.value.file == Store(file, r.value.record)
  {
    var i := 0;
    while i < |attempts|
      invariant 0 <= i <= |attempts|
      invariant forall j :: 0 <= j < i ==> !Accepted(attempts[j])
    {
      if !Accepted(attempts[i]) {
        i := i + 1;
        continue;
      }
      var rec := AcceptedRecord(date, id, name, phone1, phone2, email, attempts[i]);
      FiveDigitId(id);
      return Some(Order(rec, Store(file, rec), i));
    }
    return None;
  }
}

=== FILE: pricing.dfy ===
/**
 * The script's price list: a delivery costs a fixed amount that depends on
 * the destination and on whether more than two loots are sent.
 */
module Pricing {

  const Bangkok: string := "Bangkok"
  /** Spelled as the script spells it; "Chiang Mai" is a different string. */
  const ChaingMai: string := "Chaing Mai"

  /** `calculate_amount(destination, loots)`: exact string comparison, no case folding. */
  function CalculateAmount(destination: string, loots: int): (amount: int)
    ensures amount in {0, 200, 500, 1000, 1500}
    ensures amount > 0 <==> destination == Bangkok || destination == ChaingMai
  {
    if destination == Bangkok then
      (if loots <= 2 then 200 else 500)
    else if destination == ChaingMai then
      (if loots <= 2 then 1000 else 1500)
    else
      0
  }

  /** A row of the price list: the price up to two loots and above two. */
  datatype Tariff = Tariff(upToTwo: nat, moreThanTwo: nat)

  /** The price list as a table, the reference the pricing function is checked against. */
  const PriceList: map<string, Tariff> :=
    map[Bangkok := Tariff(200, 500), ChaingMai := Tariff(1000, 1500)]

  function TariffPrice(destination: string, loots: int): (amount: nat)
    ensures destination !in PriceList ==> amount == 0
  {
    if destination in PriceList then
      var t := PriceList[destination];
      if loots <= 2 then t.upToTwo else t.moreThanTwo
    else 0
  }

  /** The pricing function charges exactly what the price list says, for every destination and count. */
  lemma CalculateAmountFollowsPriceList(destination: string, loots: int)
    ensures CalculateAmount(destination, loots) == TariffPrice(destination, loots)
  {
  }

  lemma BangkokPrice(loots: int)
    ensures loots <= 2 ==> CalculateAmount(Bangkok, loots) == 200
    ensures loots > 2 ==> CalculateAmount(Bangkok, loots) == 500
  {
  }

  lemma ChaingMaiPrice(loots: int)
    ensures loots <= 2 ==> CalculateAmount(ChaingMai, loots) == 1000
    ensures loots > 2 ==> CalculateAmount(ChaingMai, loots) == 1500
  {
  }

  /** Near-miss spellings are not served: the comparison is exact. */
  lemma MisspelledDestinationsCostNothing(loots: int)
    ensures CalculateAmount("Chiang Mai", loots) == 0
    ensures CalculateAmount("bangkok", loots) == 0
    ensures CalculateAmount(" Bangkok", loots) == 0
  {
  }

  /** For a fixed destination, sending more loots never costs less. */
  lemma CalculateAmountMonotone(destination: string, m: int, n: int)
    requires m <= n
    ensures CalculateAmount(destination, m) <= CalculateAmount(destination, n)
  {
  }
}

=== FILE: receipt.dfy ===
/**
 * The `Check` operation: find the receipt of a delivery by the customer's
 * name and the delivery id, scanning the file's lines in order and stopping
 * at the first match.
 */
module Receipts {
  import opened Wrappers
  import opened Text
  import opened Decimal
  import opened TextFile
  import opened Records

  /**
   * What a lookup ends with. `MalformedLine(k)`: line `k` has fewer than
   * three fields, so reading its name field raises `IndexError`.
   * `ShortReceipt(k)`: line `k` matched but has fewer than ten fields, so
   * printing the receipt raises `IndexError`. `FileMissing`: there is no
   * data file to open.
   */
  datatype Lookup =
    | Found(line: nat, fields: seq<string>)
    | NotFound
    | MalformedLine(line: nat)
    | ShortReceipt(line: nat)
    | FileMissing

  /** Every line taken apart as `line.strip().split(',')`. */
  function ParseRows(lines: seq<string>): seq<seq<string>> {
    MapSeq(ParseRow, lines)
  }

  /** A row has a name field (`data[2]`) to compare. */
  predicate Indexable(data: seq<string>) {
    |data| >= 3
  }

  /**
   * The match test: name equal ignoring case, id equal as text. Ignoring
   * case means the two names have the same length and agree letter by
   * letter once each letter is folded.
   */
  predicate Matches(data: seq<string>, name: string, id: string)
    ensures Matches(data, name, id) <==>
      && Indexable(data) && data[1] == id && |data[2]| == |name|
      && forall i :: 0 <= i < |name| ==> LowerChar(data[2][i]) == LowerChar(name[i])
  {
    Indexable(data) && Lower(data[2]) == Lower(name) && data[1] == id
  }

  /** Rows `lo` up to (not including) `hi` were read without error and none matched. */
  predicate PassedOver(rows: seq<seq<string>>, lo: nat, hi: nat, name: string, id: string)
    requires lo <= hi <= |rows|
  {
    forall j :: lo <= j < hi ==> Indexable(rows[j]) && !Matches(rows[j], name, id)
  }

  /** What a scan of `rows` starting at row `lo` must report. */
  predicate FirstMatchFrom(rows: seq<seq<string>>, lo: nat, name: string, id: string, r: Lookup)
    requires lo <= |rows|
  {
    match r
    case Found(k, f) =>
      lo <= k < |rows| && PassedOver(rows, lo, k, name, id) && Matches(rows[k], name, id)
      && f == rows[k] && |f| >= 10
    case ShortReceipt(k) =>
      lo <= k < |rows| && PassedOver(rows, lo, k, name, id) && Matches(rows[k], name, id)
      && |rows[k]| < 10
    case MalformedLine(k) =>
      lo <= k < |rows| && PassedOver(rows, lo, k, name, id) && !Indexable(rows[k])
    case NotFound =>
      PassedOver(rows, lo, |rows|, name, id)
    case FileMissing =>
      false
  }

  /** The `for line in lines` loop of `Check` from row `lo` on. */
  function FindFrom(rows: seq<seq<string>>, lo: nat, name: string, id: string): (r: Lookup)
    requires lo <= |rows|
    ensures FirstMatchFrom(rows, lo, name, id, r)
    decreases |rows| - lo
  {
    if lo == |rows| then NotFound
    else
      var data := rows[lo];
      if !Indexable(data) then MalformedLine(lo)
      else if Lower(data[2]) == Lower(name) && data[1] == id then
        (if |data| < 10 then ShortReceipt(lo) else Found(lo, data))
      else FindFrom(rows, lo + 1, name, id)
  }

  /**
   * The scan over all lines: the first line, in file order, that matches,
   * with every earlier line read and rejected; or the first line that
   * cannot be read; or not-found when every line was read and rejected.
   */
  function FindReceipt(lines: seq<string>, name: string, id: string): (r: Lookup)
    ensures FirstMatchFrom(ParseRows(lines), 0, name, id, r)
  {
    FindFrom(ParseRows(lines), 0, name, id)
  }

  /**
   * `Check()`: opening a missing file for reading fails; otherwise the
   * typed name and id are stripped and the file's lines are scanned.
   */
  function Check(file: Option<string>, rawName: string, rawId: string): (r: Lookup)
    ensures r.FileMissing? <==> file.None?
    ensures file.Some? ==> FirstMatchFrom(ParseRows(FileLines(file.value)), 0, Strip(rawName), Strip(rawId), r)
  {
    match file
    case None => FileMissing
    case Some(text) => FindReceipt(FileLines(text), Strip(rawName), Strip(rawId))
  }

  /** The outcome the scan must report is unique: the specification leaves no choice. */
  lemma FirstMatchUnique(rows: seq<seq<string>>, lo: nat, name: string, id: string, r: Lookup, s: Lookup)
    requires lo <= |rows|
    requires FirstMatchFrom(rows, lo, name, id, r) && FirstMatchFrom(rows, lo, name, id, s)
    ensures r == s
  {
  }

  /** Any outcome meeting the specification is the one `FindReceipt` gives. */
  lemma FindReceiptIsTheFirstMatch(lines: seq<string>, name: string, id: string, r: Lookup)
    requires FirstMatchFrom(ParseRows(lines), 0, name, id, r)
    ensures FindReceipt(lines, name, id) == r
  {
    FirstMatchUnique(ParseRows(lines), 0, name, id, r, FindReceipt(lines, name, id));
  }

  /** Not-found exactly when every line has a name field and none matches. */
  lemma NotFoundIffNoMatch(lines: seq<string>, name: string, id: string)
    ensures FindReceipt(lines, name, id) == NotFound <==>
      forall j :: 0 <= j < |lines| ==> Indexable(ParseRow(lines[j])) && !Matches(ParseRow(lines[j]), name, id)
  {
    if forall j :: 0 <= j < |lines| ==> Indexable(ParseRow(lines[j])) && !Matches(ParseRow(lines[j]), name, id) {
      FindReceiptIsTheFirstMatch(lines, name, id, NotFound);
    }
  }

  /** Moves an outcome for the lines after a prefix of length `n` to the whole file's numbering. */
  function Shift(r: Lookup, n: nat): Lookup {
    match r
    case Found(k, f) => Found(k + n, f)
    case MalformedLine(k) => MalformedLine(k + n)
    case ShortReceipt(k) => ShortReceipt(k + n)
    case _ => r
  }

  lemma PassedOverPrefix(a: seq<seq<string>>, b: seq<seq<string>>, hi: nat, name: string, id: string)
    requires hi <= |a|
    ensures PassedOver(a + b, 0, hi, name, id) == PassedOver(a, 0, hi, name, id)
  {
    assert forall j :: 0 <= j < hi ==> (a + b)[j] == a[j];
  }

  lemma PassedOverSuffix(a: seq<seq<string>>, b: seq<seq<string>>, hi: nat, name: string, id: string)
    requires hi <= |b|
    requires PassedOver(a, 0, |a|, name, id) && PassedOver(b, 0, hi, name, id)
    ensures PassedOver(a + b, 0, |a| + hi, name, id)
  {
    assert forall j :: 0 <= j < |a| ==> (a + b)[j] == a[j];
    assert forall j :: |a| <= j < |a| + hi ==> (a + b)[j] == b[j - |a|];
  }

  /** The row-level form of `FindReceiptAppend`. */
  lemma FindFromAppend(a: seq<seq<string>>, b: seq<seq<string>>, name: string, id: string)
    ensures FindFrom(a + b, 0, name, id) ==
      if FindFrom(a, 0, name, id) == NotFound then Shift(FindFrom(b, 0, name, id), |a|)
      else FindFrom(a, 0, name, id)
  {
    var rows := a + b;
    var ra := FindFrom(a, 0, name, id);
    var rb := FindFrom(b, 0, name, id);
    var r := if ra == NotFound then Shift(rb, |a|) else ra;
    if ra == NotFound {
      PassedOverPrefix(a, b, |a|, name, id);
      match rb
      case Found(k, f) =>
        PassedOverSuffix(a, b, k, name, id);
        assert rows[|a| + k] == b[k];
      case ShortReceipt(k) =>
        PassedOverSuffix(a, b, k, name, id);
        assert rows[|a| + k] == b[k];
      case MalformedLine(k) =>
        PassedOverSuffix(a, b, k, name, id);
        assert rows[|a| + k] == b[k];
      case NotFound =>
        PassedOverSuffix(a, b, |b|, name, id);
    } else {
      PassedOverPrefix(a, b, ra.line, name, id);
      assert rows[ra.line] == a[ra.line];
    }
    assert FirstMatchFrom(rows, 0, name, id, r);
    FirstMatchUnique(rows, 0, name, id, r, FindFrom(rows, 0, name, id));
  }

  /**
   * Lines added at the end never change an outcome the earlier lines
   * already decide; when the earlier lines find nothing, the added lines
   * decide, as if scanned alone.
   */
  lemma FindReceiptAppend(a: seq<string>, b: seq<string>, name: string, id: string)
    ensures FindReceipt(a + b, name, id) ==
      if FindReceipt(a, name, id) == NotFound then Shift(FindReceipt(b, name, id), |a|)
      else FindReceipt(a, name, id)
  {
    MapSeqAppend(ParseRow, a, b);
    FindFromAppend(ParseRows(a), ParseRows(b), name, id);
  }

  lemma {:induction false} NameCaseInsensitiveFrom(rows: seq<seq<string>>, lo: nat, n1: string, n2: string, id: string)
    requires lo <= |rows|
    requires Lower(n1) == Lower(n2)
    ensures FindFrom(rows, lo, n1, id) == FindFrom(rows, lo, n2, id)
    decreases |rows| - lo
  {
    if lo < |rows| {
      NameCaseInsensitiveFrom(rows, lo + 1, n1, n2, id);
    }
  }

  /** The name comparison ignores letter case: names equal up to case find the same receipt. */
  lemma NameCaseInsensitive(lines: seq<string>, n1: string, n2: string, id: string)
    requires Lower(n1) == Lower(n2)
    ensures FindReceipt(lines, n1, id) == FindReceipt(lines, n2, id)
  {
    NameCaseInsensitiveFrom(ParseRows(lines), 0, n1, n2, id);
  }

  /** A line holding nothing but whitespace, such as a blank line, stops the scan with an error. */
  lemma BlankLineIsMalformed(lines: seq<string>, k: nat, name: string, id: string)
    requires k < |lines|
    requires forall i :: 0 <= i < |lines[k]| ==> IsSpace(lines[k][i])
    requires PassedOver(ParseRows(lines), 0, k, name, id)
    ensures FindReceipt(lines, name, id) == MalformedLine(k)
  {
    assert Strip(lines[k]) == [];
    assert ParseRow(lines[k]) == [""];
    FindReceiptIsTheFirstMatch(lines, name, id, MalformedLine(k));
  }

  /** A stored row is matched exactly when the name agrees up to case and the id text is the record's. */
  lemma RowMatchesExactly(rec: Record, name: string, id: string)
    requires RowSafe(rec)
    ensures Matches(ParseRow(SerialiseRow(rec)), name, id) <==>
      Lower(rec.name) == Lower(name) && id == IntToString(rec.id)
  {
    StoredRowMatches(rec, name, id);
    StoredRowNameAndId(rec, name, id);
  }

  lemma StoredRowMatches(rec: Record, name: string, id: string)
    requires RowSafe(rec)
    ensures Lower(rec.name) == Lower(name) && id == IntToString(rec.id) ==>
      Matches(ParseRow(SerialiseRow(rec)), name, id)
  {
    RowRoundTrip(rec);
  }

  lemma StoredRowNameAndId(rec: Record, name: string, id: string)
    requires RowSafe(rec)
    ensures Matches(ParseRow(SerialiseRow(rec)), name, id) ==>
      Lower(rec.name) == Lower(name) && id == IntToString(rec.id)
  {
    RowRoundTrip(rec);
  }

  /**
   * Ids are compared as text: a row stored for one id is never found by the
   * text of another number, nor by the same number written with a leading zero.
   */
  lemma IdComparedAsText(rec: Record, name: string, other: int)
    requires RowSafe(rec)
    ensures other != rec.id ==> !Matches(ParseRow(SerialiseRow(rec)), name, IntToString(other))
    ensures !Matches(ParseRow(SerialiseRow(rec)), name, "0" + IntToString(rec.id))
  {
    RowMatchesExactly(rec, name, IntToString(other));
    RowMatchesExactly(rec, name, "0" + IntToString(rec.id));
    IntToStringInjective(other, rec.id);
  }

  /** A typed name containing a comma never finds a receipt: no stored field holds a comma. */
  lemma CommaNameNeverFound(file: Option<string>, rawName: string, rawId: string)
    requires ',' in rawName
    ensures !Check(file, rawName, rawId).Found? && !Check(file, rawName, rawId).ShortReceipt?
  {
    if file.Some? {
      var name := Strip(rawName);
      StripKeeps(rawName, ',');
      LowerKeeps(name, ',');
      var r := Check(file, rawName, rawId);
      if r.Found? || r.ShortReceipt? {
        var field := ParseRows(FileLines(file.value))[r.line][2];
        LowerKeeps(field, ',');
        assert false;
      }
    }
  }

  /**
   * A name stored with whitespace at either end can never be looked up:
   * the typed name is stripped, the stored field is not.
   */
  lemma PaddedNameNeverMatches(rec: Record, rawName: string, rawId: string)
    requires RowSafe(rec)
    requires !Trimmed(rec.name)
    ensures !Matches(ParseRow(SerialiseRow(rec)), Strip(rawName), Strip(rawId))
  {
    RowMatchesExactly(rec, Strip(rawName), Strip(rawId));
    PaddedDiffersUpToCase(rec.name, Strip(rawName));
  }

  /**
   * Storing a record and then checking with its name and id finds it, field
   * for field, at the new last line, provided the earlier lines did not
   * already decide the lookup, the record's text fields hold no comma or
   * line break, and the name has no surrounding whitespace.
   */
  lemma StoreThenCheck(file: Option<string>, rec: Record)
    requires RowSafe(rec)
    requires Trimmed(rec.name)
    requires file.Some? ==> WellTerminated(file.value)
    requires Check(file, rec.name, IntToString(rec.id)) in {NotFound, FileMissing}
    ensures Check(Some(Store(file, rec)), rec.name, IntToString(rec.id)) ==
      Found(if file.Some? then |FileLines(file.value)| else 0, RowFields(rec))
  {
    var idText := IntToString(rec.id);
    var prior := if file.Some? then FileLines(file.value) else [];
    StripTrimmed(rec.name);
    DecimalIsPlain(rec.id);
    StripTrimmed(idText);
    assert FindReceipt(prior, rec.name, idText) == NotFound;
    StoreThenFind(file, rec, prior);
  }

  /** `StoreThenCheck` on the lines read back, before the typed name and id are stripped. */
  lemma StoreThenFind(file: Option<string>, rec: Record, prior: seq<string>)
    requires RowSafe(rec)
    requires file.Some? ==> WellTerminated(file.value)
    requires prior == if file.Some? then FileLines(file.value) else []
    requires FindReceipt(prior, rec.name, IntToString(rec.id)) == NotFound
    ensures FindReceipt(FileLines(Store(file, rec)), rec.name, IntToString(rec.id)) ==
      Found(|prior|, RowFields(rec))
  {
    StoreAppendsRow(file, rec);
    StoredRowIsFound(rec);
    FindReceiptAppend(prior, [SerialiseRow(rec)], rec.name, IntToString(rec.id));
  }

  /** A file holding just one stored row finds it by the record's own name and id. */
  lemma StoredRowIsFound(rec: Record)
    requires RowSafe(rec)
    ensures FindReceipt([SerialiseRow(rec)], rec.name, IntToString(rec.id)) == Found(0, RowFields(rec))
  {
    RowMatchesExactly(rec, rec.name, IntToString(rec.id));
    RowRoundTrip(rec);
    FindReceiptIsTheFirstMatch([SerialiseRow(rec)], rec.name, IntToString(rec.id), Found(0, RowFields(rec)));
  }
}

=== FILE: records.dfy ===
/**
 * One delivery record and the line the `Store` class appends for it to
 * Project1.csv: ten comma-separated fields, no quoting, no header, a "\n"
 * at the end. The reader takes a line apart with `line.strip().split(',')`.
 */
module Records {
  import opened Wrappers
  import opened Text
  import opened Decimal
  import opened TextFile

  /** A calendar date as `datetime.date` holds it. */
  datatype Date = Date(year: int, month: int, day: int)

  function DaysInMonth(year: int, month: int): int {
    if month == 2 then
      (if (year % 4 == 0 && year % 100 != 0) || year % 400 == 0 then 29 else 28)
    else if month in {4, 6, 9, 11} then 30
    else 31
  }

  /** The dates `datetime.date` can represent. */
  predicate ValidDate(d: Date) {
    && 1 <= d.year <= 9999
    && 1 <= d.month <= 12
    && 1 <= d.day <= DaysInMonth(d.year, d.month)
  }

  /** `str(date)`: ISO 8601 "YYYY-MM-DD", each part zero-padded. */
  function DateText(d: Date): (r: string)
    requires ValidDate(d)
    ensures |r| == 10 && r[4] == '-' && r[7] == '-'
    ensures forall i :: 0 <= i < 10 && i != 4 && i != 7 ==> IsDigit(r[i])
    ensures ParseNat(r[..4]) == d.year && ParseNat(r[5..7]) == d.month && ParseNat(r[8..]) == d.day
  {
    assert Pow10(4) == 10000 && Pow10(2) == 100;
    NatToStringShort(d.year, 4);
    NatToStringShort(d.month, 2);
    NatToStringShort(d.day, 2);
    var y := PadNat(d.year, 4);
    var m := PadNat(d.month, 2);
    var dd := PadNat(d.day, 2);
    var r := y + "-" + m + "-" + dd;
    assert forall i :: 0 <= i < 4 ==> r[i] == y[i];
    assert forall i :: 5 <= i < 7 ==> r[i] == m[i - 5];
    assert forall i :: 8 <= i < 10 ==> r[i] == dd[i - 8];
    assert r[..4] == y && r[5..7] == m && r[8..] == dd;
    PadNatRoundTrip(d.year, 4);
    PadNatRoundTrip(d.month, 2);
    PadNatRoundTrip(d.day, 2);
    r
  }

  /**
   * The ten values the script stores per delivery. `phone2` is the
   * parameter the script calls `phone`; `origin` is its `from1`.
   */
  datatype Record = Record(
    date: Date,
    id: int,
    name: string,
    phone1: string,
    phone2: string,
    email: string,
    loots: int,
    origin: string,
    to: string,
    amount: int)

  /** The ten field texts of a record, in file order. */
  function RowFields(rec: Record): (fields: seq<string>)
    requires ValidDate(rec.date)
    ensures |fields| == 10
    ensures fields[1] == IntToString(rec.id) && fields[2] == rec.name
  {
    [DateText(rec.date), IntToString(rec.id), rec.name, rec.phone1, rec.phone2,
     rec.email, IntToString(rec.loots), rec.origin, rec.to, IntToString(rec.amount)]
  }

  /**
   * The line `Store.__init__` writes: the ten fields separated by "," and
   * ended by "\n"; `SerialiseRowLayout` spells it out as the script's f-string.
   */
  function SerialiseRow(rec: Record): (line: string)
    requires ValidDate(rec.date)
    ensures line != [] && line[|line| - 1] == '\n'
  {
    Join(RowFields(rec), ',') + "\n"
  }

  /** The reader's `line.strip().split(',')`. */
  function ParseRow(line: string): (fields: seq<string>)
    ensures |fields| >= 1
    ensures forall i :: 0 <= i < |fields| ==> ',' !in fields[i]
  {
    Split(Strip(line), ',')
  }

  /** A free-text field that survives the file: no comma and no line break. */
  predicate PlainText(s: string) {
    ',' !in s && '\n' !in s && '\r' !in s
  }

  /** A record whose row reads back field for field. */
  predicate RowSafe(rec: Record) {
    && ValidDate(rec.date)
    && PlainText(rec.name) && PlainText(rec.phone1) && PlainText(rec.phone2)
    && PlainText(rec.email) && PlainText(rec.origin) && PlainText(rec.to)
  }

  /** The stored line is exactly the script's f-string, field by field in the fixed order. */
  lemma SerialiseRowLayout(rec: Record)
    requires ValidDate(rec.date)
    ensures SerialiseRow(rec) ==
      DateText(rec.date) + "," + IntToString(rec.id) + "," + rec.name + "," + rec.phone1 + ","
        + rec.phone2 + "," + rec.email + "," + IntToString(rec.loots) + "," + rec.origin + ","
        + rec.to + "," + IntToString(rec.amount) + "\n"
  {
    var f := RowFields(rec);
    JoinTen(f[0], f[1], f[2], f[3], f[4], f[5], f[6], f[7], f[8], f[9]);
    assert f == [f[0], f[1], f[2], f[3], f[4], f[5], f[6], f[7], f[8], f[9]];
  }

  /** Ten fields joined by commas, written out as the f-string writes them. */
  lemma JoinTen(a0: string, a1: string, a2: string, a3: string, a4: string,
                a5: string, a6: string, a7: string, a8: string, a9: string)
    ensures Join([a0, a1, a2, a3, a4, a5, a6, a7, a8, a9], ',') ==
      a0 + "," + a1 + "," + a2 + "," + a3 + "," + a4 + "," + a5 + "," + a6 + ","
        + a7 + "," + a8 + "," + a9
  {
    JoinSnoc([a0], a1, ',');
    assert [a0] + [a1] == [a0, a1];
    JoinSnoc([a0, a1], a2, ',');
    assert [a0, a1] + [a2] == [a0, a1, a2];
    JoinSnoc([a0, a1, a2], a3, ',');
    assert [a0, a1, a2] + [a3] == [a0, a1, a2, a3];
    JoinSnoc([a0, a1, a2, a3], a4, ',');
    assert [a0, a1, a2, a3] + [a4] == [a0, a1, a2, a3, a4];
    JoinSnoc([a0, a1, a2, a3, a4], a5, ',');
    assert [a0, a1, a2, a3, a4] + [a5] == [a0, a1, a2, a3, a4, a5];
    JoinSnoc([a0, a1, a2, a3, a4, a5], a6, ',');
    assert [a0, a1, a2, a3, a4, a5] + [a6] == [a0, a1, a2, a3, a4, a5, a6];
    JoinSnoc([a0, a1, a2, a3, a4, a5, a6], a7, ',');
    assert [a0, a1, a2, a3, a4, a5, a6] + [a7] == [a0, a1, a2, a3, a4, a5, a6, a7];
    JoinSnoc([a0, a1, a2, a3, a4, a5, a6, a7], a8, ',');
    assert [a0, a1, a2, a3, a4, a5, a6, a7] + [a8] == [a0, a1, a2, a3, a4, a5, a6, a7, a8];
    JoinSnoc([a0, a1, a2, a3, a4, a5, a6, a7, a8], a9, ',');
    assert [a0, a1, a2, a3, a4, a5, a6, a7, a8] + [a9] == [a0, a1, a2, a3, a4, a5, a6, a7, a8, a9];
  }

  lemma DecimalIsPlain(n: int)
    ensures PlainText(IntToString(n))
    ensures !IsSpace(IntToString(n)[0]) && !IsSpace(IntToString(n)[|IntToString(n)| - 1])
  {
    var s := IntToString(n);
    if n < 0 {
      assert forall i :: 1 <= i < |s| ==> s[i] == s[1..][i - 1];
    }
    assert forall i :: 0 <= i < |s| ==> s[i] == '-' || IsDigit(s[i]);
  }

  /** Every field of a safe record is plain text, and the row neither starts nor ends with whitespace. */
  lemma RowFieldsPlain(rec: Record)
    requires RowSafe(rec)
    ensures var f := RowFields(rec);
      && (forall i :: 0 <= i < 10 ==> PlainText(f[i]))
      && f[0] != [] && !IsSpace(f[0][0])
      && f[9] != [] && !IsSpace(f[9][|f[9]| - 1])
  {
    DecimalIsPlain(rec.id);
    DecimalIsPlain(rec.loots);
    DecimalIsPlain(rec.amount);
    DateTextPlain(rec.date);
  }

  /** The date text is plain and starts with a digit. */
  lemma DateTextPlain(d: Date)
    requires ValidDate(d)
    ensures PlainText(DateText(d)) && IsDigit(DateText(d)[0])
  {
    var date := DateText(d);
    assert forall i :: 0 <= i < |date| ==> date[i] == '-' || IsDigit(date[i]);
  }

  /** Stripping the stored line removes exactly its final "\n". */
  lemma StripRow(rec: Record)
    requires RowSafe(rec)
    ensures Strip(SerialiseRow(rec)) == Join(RowFields(rec), ',')
  {
    var f := RowFields(rec);
    RowFieldsPlain(rec);
    var j := Join(f, ',');
    JoinEnds(f, ',');
    assert IsSpace('\n');
    StripTrailingSpace(j, "\n");
  }

  /** Stripping and splitting the stored line gives back the ten fields, in order. */
  lemma RowRoundTrip(rec: Record)
    requires RowSafe(rec)
    ensures ParseRow(SerialiseRow(rec)) == RowFields(rec)
  {
    StripRow(rec);
    RowFieldsPlain(rec);
    SplitJoin(RowFields(rec), ',');
  }

  /** The first character of a join is that of its first field, the last that of its last field. */
  lemma {:induction false} JoinEnds(fields: seq<string>, sep: char)
    requires |fields| >= 1 && fields[|fields| - 1] != []
    ensures var j := Join(fields, sep);
      && j != []
      && (fields[0] != [] ==> j[0] == fields[0][0])
      && j[|j| - 1] == fields[|fields| - 1][|fields[|fields| - 1]| - 1]
  {
    if |fields| > 1 {
      JoinEnds(fields[1..], sep);
    }
  }

  /** No stored line contains a line break before its final "\n", nor a carriage return. */
  lemma RowIsOneLine(rec: Record)
    requires RowSafe(rec)
    ensures ProperLine(SerialiseRow(rec)) && '\r' !in SerialiseRow(rec)
  {
    RowFieldsPlain(rec);
    JoinPlain(RowFields(rec));
  }

  /** Joining plain fields with a comma gives plain text. */
  lemma {:induction false} JoinPlain(fields: seq<string>)
    requires |fields| >= 1
    requires forall i :: 0 <= i < |fields| ==> PlainText(fields[i])
    ensures '\n' !in Join(fields, ',') && '\r' !in Join(fields, ',')
  {
    if |fields| > 1 {
      JoinPlain(fields[1..]);
    }
  }

  /**
   * `Store.__init__`'s append: opening in "a" mode creates a missing file,
   * then the row is written at its end. Earlier content is never touched
   * and the file always ends with the row's "\n".
   */
  function Store(file: Option<string>, rec: Record): (text: string)
    requires ValidDate(rec.date)
    ensures file.Some? ==> |text| > |file.value| && text[..|file.value|] == file.value
    ensures WellTerminated(text)
  {
    var prior := if file.Some? then file.value else "";
    prior + SerialiseRow(rec)
  }

  /**
   * Read back, the file after a store holds the lines it held before and
   * then the record's row as one more line.
   */
  lemma StoreAppendsRow(file: Option<string>, rec: Record)
    requires RowSafe(rec)
    requires file.Some? ==> WellTerminated(file.value)
    ensures FileLines(Store(file, rec)) ==
      (if file.Some? then FileLines(file.value) else []) + [SerialiseRow(rec)]
  {
    var prior := if file.Some? then file.value else "";
    RowIsOneLine(rec);
    AppendOneLine(prior, SerialiseRow(rec));
    assert file.None? ==> FileLines(prior) == [];
  }
}

=== FILE: text.dfy ===
/**
 * The string operations the script relies on, with Python's meaning:
 * `str.strip()` with no argument, `str.lower()` (ASCII letters only),
 * `str.split(sep)` with an explicit one-character separator, and the
 * inverse of that split, `sep.join(fields)`.
 */
module Text {

  /** Python's `str.isspace` characters: the ones `strip()` removes. */
  predicate IsSpace(c: char) {
    var n := c as int;
    || (9 <= n <= 13) || (28 <= n <= 32)
    || n == 0x85 || n == 0xA0 || n == 0x1680
    || (0x2000 <= n <= 0x200A)
    || n == 0x2028 || n == 0x2029 || n == 0x202F || n == 0x205F || n == 0x3000
  }

  /** The number of whitespace characters `s` starts with, counting from position `i`. */
  function LeadingSpaces(s: string, i: nat): (n: nat)
    requires i <= |s|
    ensures i <= n <= |s|
    ensures n == |s| || !IsSpace(s[n])
    ensures forall k :: i <= k < n ==> IsSpace(s[k])
    decreases |s| - i
  {
    if i < |s| && IsSpace(s[i]) then LeadingSpaces(s, i + 1) else i
  }

  /** Removes leading whitespace. */
  function TrimLeft(s: string): (r: string)
    ensures |r| <= |s| && r == s[|s| - |r|..]
    ensures r == [] || !IsSpace(r[0])
    ensures forall i :: 0 <= i < |s| - |r| ==> IsSpace(s[i])
  {
    s[LeadingSpaces(s, 0)..]
  }

  /** Where the whitespace run that ends at position `j` of `s` begins. */
  function TrailingStart(s: string, j: nat): (n: nat)
    requires j <= |s|
    ensures n <= j
    ensures n == 0 || !IsSpace(s[n - 1])
    ensures forall k :: n <= k < j ==> IsSpace(s[k])
  {
    if j > 0 && IsSpace(s[j - 1]) then TrailingStart(s, j - 1) else j
  }

  /** Removes trailing whitespace. */
  function TrimRight(s: string): (r: string)
    ensures |r| <= |s| && r == s[..|r|]
    ensures r == [] || !IsSpace(r[|r| - 1])
    ensures forall i :: |r| <= i < |s| ==> IsSpace(s[i])
  {
    s[..TrailingStart(s, |s|)]
  }

  /** Text with no whitespace at either end, as `strip()` leaves it. */
  predicate Trimmed(s: string) {
    s == [] || (!IsSpace(s[0]) && !IsSpace(s[|s| - 1]))
  }

  /** Python's `s.strip()`: the longest piece of `s` with no whitespace at either end. */
  function Strip(s: string): (r: string)
    ensures |r| <= |s|
    ensures Trimmed(r)
    ensures r == [] <==> forall i :: 0 <= i < |s| ==> IsSpace(s[i])
  {
    TrimRight(TrimLeft(s))
  }

  /**
   * `strip()` cuts a run of whitespace off each end and nothing else: the
   * result is the piece of `s` that starts after the leading whitespace,
   * and everything after that piece is whitespace too.
   */
  lemma StripCutsWhitespaceEnds(s: string)
    ensures var i := LeadingSpaces(s, 0);
      && i + |Strip(s)| <= |s|
      && Strip(s) == s[i..i + |Strip(s)|]
      && (forall k :: 0 <= k < i ==> IsSpace(s[k]))
      && (forall k :: i + |Strip(s)| <= k < |s| ==> IsSpace(s[k]))
  {
    var i := LeadingSpaces(s, 0);
    var l := TrimLeft(s);
    assert l == s[i..];
    var r := TrimRight(l);
    assert r == Strip(s);
    assert r == l[..|r|] == s[i..i + |r|];
    forall k | i + |r| <= k < |s|
      ensures IsSpace(s[k])
    {
      assert s[k] == l[k - i];
    }
  }

  /**
   * The converse: a piece of `s` with no whitespace at its ends and only
   * whitespace around it is what `strip()` returns.
   */
  lemma StripIsTheTrimmedMiddle(s: string, i: nat, t: string)
    requires i + |t| <= |s| && t == s[i..i + |t|]
    requires forall k :: 0 <= k < i ==> IsSpace(s[k])
    requires forall k :: i + |t| <= k < |s| ==> IsSpace(s[k])
    requires Trimmed(t)
    ensures Strip(s) == t
  {
    StripCutsWhitespaceEnds(s);
    var j := LeadingSpaces(s, 0);
    var r := Strip(s);
    if t == [] {
      assert forall k :: 0 <= k < |s| ==> IsSpace(s[k]);
    } else {
      assert s[i] == t[0] && !IsSpace(s[i]);
      assert i == j;
      assert r != [];
      assert s[i + |t| - 1] == t[|t| - 1];
      assert s[j + |r| - 1] == r[|r| - 1];
      assert |r| == |t|;
    }
  }

  /** Stripping only ever removes whitespace: every other character survives. */
  lemma StripKeeps(s: string, c: char)
    requires c in s && !IsSpace(c)
    ensures c in Strip(s)
  {
    var l := TrimLeft(s);
    var i :| 0 <= i < |s| && s[i] == c;
    var j := i - (|s| - |l|);
    assert 0 <= j < |l| && l[j] == c;
    assert TrimRight(l)[j] == c;
  }

  /** Stripping text whose ends are not whitespace, followed by whitespace, yields the text. */
  lemma StripTrailingSpace(t: string, w: string)
    requires |t| > 0 && !IsSpace(t[0]) && !IsSpace(t[|t| - 1])
    requires forall i :: 0 <= i < |w| ==> IsSpace(w[i])
    ensures Strip(t + w) == t
  {
    var s := t + w;
    assert TrimLeft(s) == s;
    TrimRightSpaces(t, w);
  }

  /** Text with no whitespace at either end is left alone by `strip()`. */
  lemma StripTrimmed(s: string)
    requires Trimmed(s)
    ensures Strip(s) == s
  {
    if s != [] {
      StripTrailingSpace(s, "");
      assert s + "" == s;
    }
  }

  lemma {:induction false} TrimRightSpaces(t: string, w: string)
    requires |t| > 0 && !IsSpace(t[|t| - 1])
    requires forall i :: 0 <= i < |w| ==> IsSpace(w[i])
    ensures TrimRight(t + w) == t
    decreases |w|
  {
    if w == [] {
      assert t + w == t;
    } else {
      var s := t + w;
      assert s[..|s| - 1] == t + w[..|w| - 1];
      TrimRightSpaces(t, w[..|w| - 1]);
    }
  }

  /** Applies `f` to every element of `s`, in order. */
  function MapSeq<A, B>(f: A -> B, s: seq<A>): (r: seq<B>)
    ensures |r| == |s|
    ensures forall j :: 0 <= j < |s| ==> r[j] == f(s[j])
  {
    seq(|s|, j requires 0 <= j < |s| => f(s[j]))
  }

  lemma MapSeqAppend<A, B>(f: A -> B, a: seq<A>, b: seq<A>)
    ensures MapSeq(f, a + b) == MapSeq(f, a) + MapSeq(f, b)
  {
    var l := MapSeq(f, a + b);
    var r := MapSeq(f, a) + MapSeq(f, b);
    forall j | 0 <= j < |l|
      ensures l[j] == r[j]
    {
      if j < |a| {
        assert (a + b)[j] == a[j];
      } else {
        assert (a + b)[j] == b[j - |a|];
      }
    }
  }

  /** Python's `str.lower()` restricted to ASCII: maps 'A'..'Z' to 'a'..'z'. */
  function LowerChar(c: char): (r: char)
    ensures 'A' <= c <= 'Z' ==> 'a' <= r <= 'z' && r as int - c as int == 32
    ensures !('A' <= c <= 'Z') ==> r == c
  {
    if 'A' <= c <= 'Z' then (c as int + 32) as char else c
  }

  function Lower(s: string): (r: string)
    ensures |r| == |s|
    ensures forall i :: 0 <= i < |s| ==> r[i] == LowerChar(s[i])
  {
    if s == [] then [] else [LowerChar(s[0])] + Lower(s[1..])
  }

  /** A character that is not an ASCII letter is in the lower-cased text exactly when it is in the text. */
  lemma LowerKeeps(s: string, c: char)
    requires !('A' <= c <= 'Z') && !('a' <= c <= 'z')
    ensures c in s <==> c in Lower(s)
  {
    if c in s {
      var i :| 0 <= i < |s| && s[i] == c;
      assert Lower(s)[i] == c;
    }
    if c in Lower(s) {
      var i :| 0 <= i < |s| && Lower(s)[i] == c;
      assert LowerChar(s[i]) == c;
      assert s[i] == c;
    }
  }

  /** Lower-casing never turns whitespace into non-whitespace or back. */
  lemma LowerKeepsSpace(c: char)
    ensures IsSpace(LowerChar(c)) <==> IsSpace(c)
  {
  }

  /**
   * Text with whitespace at an end never equals, up to case, text that has
   * none there: comparing lower-cased text cannot hide surrounding blanks.
   */
  lemma PaddedDiffersUpToCase(padded: string, trimmed: string)
    requires padded != [] && (IsSpace(padded[0]) || IsSpace(padded[|padded| - 1]))
    requires Trimmed(trimmed)
    ensures Lower(padded) != Lower(trimmed)
  {
    var n := |padded|;
    if |trimmed| == n {
      LowerKeepsSpace(padded[0]);
      LowerKeepsSpace(trimmed[0]);
      LowerKeepsSpace(padded[n - 1]);
      LowerKeepsSpace(trimmed[n - 1]);
    }
  }

  /** Python's `sep.join(fields)` for a non-empty list of fields. */
  function Join(fields: seq<string>, sep: char): string
    requires |fields| >= 1
  {
    if |fields| == 1 then fields[0] else fields[0] + [sep] + Join(fields[1..], sep)
  }

  /** Joining one more field at the end adds a separator and that field. */
  lemma {:induction false} JoinSnoc(fields: seq<string>, last: string, sep: char)
    requires |fields| >= 1
    ensures Join(fields + [last], sep) == Join(fields, sep) + [sep] + last
  {
    if |fields| == 1 {
      assert (fields + [last])[1..] == [last];
    } else {
      assert (fields + [last])[1..] == fields[1..] + [last];
      JoinSnoc(fields[1..], last, sep);
    }
  }

  /**
   * Python's `s.split(sep)`: the pieces between occurrences of `sep`, so that
   * the empty string splits into one empty field and `n` separators give
   * `n + 1` fields. Joining the pieces gives `s` back (`JoinSplit`).
   */
  function Split(s: string, sep: char): (r: seq<string>)
    ensures |r| >= 1
    ensures forall i :: 0 <= i < |r| ==> sep !in r[i]
  {
    if s == [] then [""]
    else
      var rest := Split(s[1..], sep);
      if s[0] == sep then [""] + rest
      else [[s[0]] + rest[0]] + rest[1..]
  }

  /** Joining a field in front of at least one other adds that field and a separator. */
  lemma JoinCons(first: string, rest: seq<string>, sep: char)
    requires |rest| >= 1
    ensures Join([first] + rest, sep) == first + [sep] + Join(rest, sep)
  {
    assert ([first] + rest)[1..] == rest;
  }

  /** Putting a character in front of the first field puts it in front of the joined text. */
  lemma JoinExtendFirst(c: char, fields: seq<string>, sep: char)
    requires |fields| >= 1
    ensures Join([[c] + fields[0]] + fields[1..], sep) == [c] + Join(fields, sep)
  {
    if |fields| > 1 {
      JoinCons([c] + fields[0], fields[1..], sep);
      JoinCons(fields[0], fields[1..], sep);
      assert fields == [fields[0]] + fields[1..];
    }
  }

  /** Joining the pieces of a split gives the text back. */
  lemma {:induction false} JoinSplit(s: string, sep: char)
    ensures Join(Split(s, sep), sep) == s
  {
    if s != [] {
      JoinSplit(s[1..], sep);
      var rest := Split(s[1..], sep);
      assert s == [s[0]] + s[1..];
      if s[0] == sep {
        assert Split(s, sep) == [""] + rest;
        JoinCons("", rest, sep);
      } else {
        assert Split(s, sep) == [[s[0]] + rest[0]] + rest[1..];
        JoinExtendFirst(s[0], rest, sep);
      }
    }
  }

  /** Text without the separator splits into a single field. */
  lemma {:induction false} SplitNoSep(a: string, sep: char)
    requires sep !in a
    ensures Split(a, sep) == [a]
  {
    if a != [] {
      SplitNoSep(a[1..], sep);
      assert [a[0]] + a[1..] == a;
    }
  }

  /** A separator-free prefix followed by the separator is the first field. */
  lemma {:induction false} SplitPrefix(a: string, sep: char, rest: string)
    requires sep !in a
    ensures Split(a + [sep] + rest, sep) == [a] + Split(rest, sep)
  {
    var s := a + [sep] + rest;
    if a == [] {
      assert s[1..] == rest;
    } else {
      assert s[1..] == a[1..] + [sep] + rest;
      SplitPrefix(a[1..], sep, rest);
      assert [a[0]] + a[1..] == a;
    }
  }

  /** Split undoes Join whenever no field contains the separator. */
  lemma {:induction false} SplitJoin(fields: seq<string>, sep: char)
    requires |fields| >= 1
    requires forall i :: 0 <= i < |fields| ==> sep !in fields[i]
    ensures Split(Join(fields, sep), sep) == fields
  {
    if |fields| == 1 {
      SplitNoSep(fields[0], sep);
    } else {
      SplitPrefix(fields[0], sep, Join(fields[1..], sep));
      SplitJoin(fields[1..], sep);
      assert [fields[0]] + fields[1..] == fields;
    }
  }
}

=== FILE: textfile.dfy ===
/**
 * The data file as Python's text mode sees it: reading translates every
 * "\r\n" and lone "\r" to "\n" (universal newlines), and `readlines()`
 * cuts the translated text after each "\n", keeping the "\n".
 */
module TextFile {

  /** Universal-newline translation applied when a file is read in text mode. */
  function Translate(s: string): (r: string)
    ensures '\r' !in r
    decreases |s|
  {
    if s == [] then []
    else if s[0] == '\r' && |s| >= 2 && s[1] == '\n' then "\n" + Translate(s[2..])
    else if s[0] == '\r' then "\n" + Translate(s[1..])
    else [s[0]] + Translate(s[1..])
  }

  /** Text without carriage returns reads back unchanged. */
  lemma {:induction false} TranslateNoReturn(s: string)
    requires '\r' !in s
    ensures Translate(s) == s
  {
    if s != [] {
      TranslateNoReturn(s[1..]);
    }
  }

  /** Translation works piecewise when the first piece does not end in a carriage return. */
  lemma {:induction false} TranslateAppend(a: string, b: string)
    requires a == [] || a[|a| - 1] != '\r'
    ensures Translate(a + b) == Translate(a) + Translate(b)
    decreases |a|
  {
    if a == [] {
      assert a + b == b;
    } else {
      var s := a + b;
      assert s[0] == a[0];
      if a[0] == '\r' && a[1] == '\n' {
        assert s[1] == a[1] && s[2..] == a[2..] + b;
        TranslateAppend(a[2..], b);
        assert Translate(s) == "\n" + Translate(a[2..] + b);
      } else if a[0] == '\r' {
        assert s[1] == a[1] && s[1..] == a[1..] + b;
        TranslateAppend(a[1..], b);
        assert Translate(s) == "\n" + Translate(a[1..] + b);
      } else {
        assert s[1..] == a[1..] + b;
        TranslateAppend(a[1..], b);
        assert Translate(s) == [a[0]] + Translate(a[1..] + b);
      }
    }
  }

  /**
   * Each line break becomes one "\n": a "\r\n" pair, and a "\r" not
   * followed by "\n", after text that holds no "\r". With
   * `TranslateNoReturn` this fixes the translation of every text.
   */
  lemma {:induction false} TranslateLineEnds(a: string, b: string)
    requires '\r' !in a
    ensures Translate(a + "\r\n" + b) == a + "\n" + Translate(b)
    ensures (b == [] || b[0] != '\n') ==> Translate(a + "\r" + b) == a + "\n" + Translate(b)
  {
    TranslateNoReturn(a);
    var pair := "\r\n" + b;
    assert pair[2..] == b;
    assert a + "\r\n" + b == a + pair;
    TranslateAppend(a, pair);
    if b == [] || b[0] != '\n' {
      var lone := "\r" + b;
      assert lone[1..] == b;
      assert a + "\r" + b == a + lone;
      TranslateAppend(a, lone);
    }
  }

  /** Text ending in "\n" still ends in "\n" after translation. */
  lemma {:induction false} TranslateKeepsNewlineEnd(s: string)
    requires s != [] && s[|s| - 1] == '\n'
    ensures Translate(s) != [] && Translate(s)[|Translate(s)| - 1] == '\n'
    decreases |s|
  {
    if |s| == 1 {
      assert Translate(s) == [s[0]] + Translate([]);
    } else if s[0] == '\r' {
      if s[1] == '\n' {
        if |s| > 2 {
          TranslateKeepsNewlineEnd(s[2..]);
        }
      } else {
        TranslateKeepsNewlineEnd(s[1..]);
      }
    } else {
      TranslateKeepsNewlineEnd(s[1..]);
    }
  }

  /** Length of the first line of `s`, its "\n" included. */
  function LineEnd(s: string): (k: nat)
    ensures s != [] ==> 0 < k <= |s|
    ensures s == [] ==> k == 0
  {
    if s == [] then 0
    else if s[0] == '\n' then 1
    else 1 + LineEnd(s[1..])
  }

  /** The first line stops at the first "\n": none comes earlier, and one ends it unless the text runs out. */
  lemma {:induction false} LineEndIsFirstNewline(s: string)
    ensures LineEnd(s) < |s| ==> s[LineEnd(s) - 1] == '\n'
    ensures forall j :: 0 <= j < LineEnd(s) - 1 ==> s[j] != '\n'
  {
    if s != [] && s[0] != '\n' {
      LineEndIsFirstNewline(s[1..]);
    }
  }

  /** The first line of text that contains a "\n" ends at its first "\n", whatever follows. */
  lemma {:induction false} LineEndPrefix(a: string, b: string)
    requires '\n' in a
    ensures LineEnd(a + b) == LineEnd(a)
  {
    if a[0] != '\n' {
      assert (a + b)[1..] == a[1..] + b;
      LineEndPrefix(a[1..], b);
    }
  }

  function Concat(lines: seq<string>): string {
    if lines == [] then [] else lines[0] + Concat(lines[1..])
  }

  /**
   * Python's `f.readlines()`: the lines of `s` in order, each keeping its
   * "\n" (only the last may lack one). Concatenated they give `s` back
   * (`ConcatReadLines`); `ReadLinesOfLines` is the other direction.
   */
  function ReadLines(s: string): (lines: seq<string>)
    ensures forall i :: 0 <= i < |lines| ==> lines[i] != []
    ensures forall i :: 0 <= i < |lines| - 1 ==> ProperLine(lines[i])
    ensures |lines| > 0 ==> '\n' !in lines[|lines| - 1][..|lines[|lines| - 1]| - 1]
    decreases |s|
  {
    if s == [] then []
    else
      var k := LineEnd(s);
      LineEndIsFirstNewline(s);
      [s[..k]] + ReadLines(s[k..])
  }

  /** Reading loses nothing: the lines, put back together, are the text. */
  lemma {:induction false} ConcatReadLines(s: string)
    ensures Concat(ReadLines(s)) == s
    decreases |s|
  {
    if s != [] {
      var k := LineEnd(s);
      ConcatReadLines(s[k..]);
      var lines := ReadLines(s);
      assert lines[1..] == ReadLines(s[k..]);
      assert s[..k] + s[k..] == s;
    }
  }

  /** Reading text that ends in a "\n" and then more text gives the lines of each, in order. */
  lemma {:induction false} ReadLinesAppend(a: string, b: string)
    requires a == [] || a[|a| - 1] == '\n'
    ensures ReadLines(a + b) == ReadLines(a) + ReadLines(b)
    decreases |a|
  {
    if a == [] {
      assert a + b == b;
    } else {
      assert a[|a| - 1] in a;
      LineEndPrefix(a, b);
      var k := LineEnd(a);
      var s := a + b;
      assert s[..k] == a[..k];
      assert s[k..] == a[k..] + b;
      ReadLinesAppend(a[k..], b);
    }
  }

  /** A proper line ends in "\n" and holds no other "\n". */
  predicate ProperLine(line: string) {
    && line != [] && line[|line| - 1] == '\n'
    && forall i :: 0 <= i < |line| - 1 ==> line[i] != '\n'
  }

  /** The first line of a proper line is all of it. */
  lemma {:induction false} LineEndOfProperLine(row: string)
    requires ProperLine(row)
    ensures LineEnd(row) == |row|
  {
    if row[0] != '\n' {
      assert |row| > 1;
      LineEndOfProperLine(row[1..]);
    }
  }

  /** A proper line is read as one line. */
  lemma OneLine(row: string)
    requires ProperLine(row)
    ensures ReadLines(row) == [row]
  {
    LineEndOfProperLine(row);
    assert row[..|row|] == row;
    assert row[|row|..] == [];
    assert ReadLines(row) == [row] + ReadLines([]);
  }

  /** Reading the concatenation of proper lines gives those lines back. */
  lemma {:induction false} ReadLinesOfLines(lines: seq<string>)
    requires forall i :: 0 <= i < |lines| ==> ProperLine(lines[i])
    ensures ReadLines(Concat(lines)) == lines
  {
    if lines != [] {
      ReadLinesAppend(lines[0], Concat(lines[1..]));
      OneLine(lines[0]);
      ReadLinesOfLines(lines[1..]);
      assert [lines[0]] + lines[1..] == lines;
    }
  }

  /** A file is well terminated when it is empty or its last character is "\n". */
  predicate WellTerminated(text: string) {
    text == [] || text[|text| - 1] == '\n'
  }

  /** The lines the script reads back from the file text. */
  function FileLines(text: string): seq<string> {
    ReadLines(Translate(text))
  }

  /**
   * Appending one row that ends in its only "\n" and holds no "\r" to a
   * well-terminated file adds exactly that row as the file's last line.
   */
  lemma AppendOneLine(text: string, row: string)
    requires WellTerminated(text)
    requires ProperLine(row) && '\r' !in row
    ensures FileLines(text + row) == FileLines(text) + [row]
    ensures WellTerminated(text + row)
  {
    var t := Translate(text);
    TranslateAppend(text, row);
    TranslateNoReturn(row);
    assert Translate(text + row) == t + row;
    if text != [] {
      TranslateKeepsNewlineEnd(text);
    }
    assert WellTerminated(t);
    ReadLinesAppend(t, row);
    OneLine(row);
  }
}

=== FILE: wrappers.dfy ===
/** The optional-value datatype used throughout the model. */
module Wrappers {

  /** `None` is the absence of a value, `Some(v)` its presence. */
  datatype Option<+T> = None | Some(value: T)
}
